=== FILE: README.md ===
# TemplateMatcher cache engine in Dafny

This project models the cache engine of `TemplateMatcher`. The class renders text templates by substituting named parameters into a template's text. It caches each template's text under the template's identifier. With auto-purge on, a background worker runs a purge cycle at a fixed interval. Each cycle evicts the entries not used since the previous cycle. Two behaviours of the code depart from that design (see Findings):

- A cached key other than the marker that equals "sentinel" ignoring case, once oldest, stops every later cycle from evicting anything until that key itself is rendered.
- Rendering the key "sentinel" makes the next cycle evict entries used within the current interval.

The model covers:

- **The ordered store** (`Cache`). It is a Java `LinkedHashMap<String, String>`, split into:
  - an iteration order, a sequence of distinct keys, oldest first;
  - a key-to-text map;
  - an access-order flag.

  `containsKey` never reorders. `get` moves a present key to the newest end in access order only. `put` appends a new key. In access order `put` also moves an existing key to the newest end; in insertion order it keeps the key's place.
- **The generational sweep** (`Sweeps`). The purge worker walks the store from its oldest end. It removes entries until it meets a key equal to `"sentinel"` ignoring case, then reads the marker with `get`, which moves the marker to the newest end. If no such key exists, everything is removed and the marker is not read.
  - `SweepUntil` states the cycle for any boundary test.
  - `SweepIgnoringCase` is the case-insensitive test of line 139.
  - `SweepCycle` is the same cycle written as the iterator loop of lines 133-147.
  - `SweepExact` compares the marker exactly (see Findings).
- **The matcher** (`Templates`):
  - the three constructors and `startPurgeWorker`: no marker and no worker without auto-purge; otherwise a non-positive interval becomes 60, then the marker is inserted and the worker scheduled;
  - `template`, the cache-or-load rendering;
  - the purge cycle;
  - arbitrary interleavings of renders and purge ticks (`Replay`);
  - `TemplateReserved`, rendering with the marker's key kept from callers (see Findings).
- **The static accessors `single(...)`** (`Singleton`). The first call wins: a registry holds at most one matcher.

The file loader and the `StrSubstitutor` substitution are function parameters. `load(key)` returns the text, or None when `Files.exists` reports no file (Java's `null`). `subst(text, params)` is the substitution. That the loader is not called on a cache hit is stated as: the outcome of a hit is the same for every loader.

Some behaviour of the code that the model makes explicit:

- **The marker is always re-touched while it is present.** With a marker-like key in the store, the loop leaves through `break` (line 140) and reads the marker (line 147). The early return at line 144 happens only once every entry has been removed, and the one at line 133 only when the store is already empty. `Inv` keeps the marker present, so every purge cycle re-touches it.
- **The marker can be rendered.** With auto-purge on, requesting the key `"sentinel"` is a cache hit (line 70) that renders the marker text. The file is never loaded (`MarkerKeyRendersMarker`). The hit moves the marker to the newest end, so, when no look-alike key is cached, the next cycle evicts every entry used before that request (`MarkerRenderEmptiesNextTick`).
- **The interval is coerced only with auto-purge.** `startPurgeWorker` returns at line 118, before the coercion at lines 119-120, so a matcher built without auto-purge keeps the interval it was given.
- **A partial read is cached.** `loadTemplate` returns null only when `Files.exists` reports no file (lines 85-86), which includes a file whose existence cannot be determined. After an `IOException` it returns the text read so far (lines 102-107), and `template` caches that text (line 78).

## Model

| member | source | states |
|---|---|---|
| Cache.Empty | src/main/java/com/jvra/template/TemplateMatcher.java:40 | a new map is well formed and holds no entry, in the requested ordering mode |
| Cache.ContainsKey | src/main/java/com/jvra/template/TemplateMatcher.java:70 | a key is contained exactly when it occurs in the iteration order |
| Cache.Get | src/main/java/com/jvra/template/TemplateMatcher.java:71 | returns the stored text (or null for an absent key) without changing any text. In access order a present key becomes newest; otherwise nothing moves. Every other key keeps its relative order, and keys stay distinct |
| Cache.Put | src/main/java/com/jvra/template/TemplateMatcher.java:78 | the key maps to the new text and every other key keeps its text. A new key, or any key in access order, becomes newest; an existing key in insertion order keeps its place. Other keys keep their relative order and keys stay distinct |
| Cache.DropOldest | src/main/java/com/jvra/template/TemplateMatcher.java:135-145 | removing the n oldest entries through the iterator keeps exactly the keys from position n on, in order, with unchanged texts |
| Cache.ContainsKeyMatchesGet | src/main/java/com/jvra/template/TemplateMatcher.java:70-71 | `containsKey` holds exactly when `get` returns a value, and that value is the stored text |
| Cache.PutThenGet | src/main/java/com/jvra/template/TemplateMatcher.java:78 | a `get` after `put` returns the text just put, and `put` changes what `get` returns for no other key |
| Sweeps.SweepUntil | src/main/java/com/jvra/template/TemplateMatcher.java:128-147 | a sweep keeps a well-formed store, removes as many entries as precede the first boundary key, and never changes a survivor's text |
| Sweeps.SweepRemovesOldGeneration | src/main/java/com/jvra/template/TemplateMatcher.java:135-145 | the entry at position j survives exactly when the first boundary key is at or before j, so exactly the keys preceding it are removed |
| Sweeps.SweepKeepsRelativeOrder | src/main/java/com/jvra/template/TemplateMatcher.java:135-147 | with the marker left out of both orders, the survivors' order is the newest part of the old order |
| Sweeps.SweepMovesMarkerToNewest | src/main/java/com/jvra/template/TemplateMatcher.java:139-147 | if the marker is present and passes the boundary test, it survives and ends newest |
| Sweeps.SweepIgnoringCase | src/main/java/com/jvra/template/TemplateMatcher.java:139 | the case-insensitive sweep keeps the store well formed, never changes a survivor's text, and leaves a present marker newest |
| Sweeps.SweepExact | src/main/java/com/jvra/template/TemplateMatcher.java:139 | the corrected sweep has the same guarantees, with the boundary being the marker itself |
| Sweeps.SweepCycle | src/main/java/com/jvra/template/TemplateMatcher.java:128-147 | the worker's iterator loop: remove until a marker-like key, return early when the store runs out, then read the marker. It yields exactly the functional sweep |
| Sweeps.RemoveUntilBoundary | src/main/java/com/jvra/template/TemplateMatcher.java:133-145 | the iterator walk removes one oldest entry at a time and stops at the first key equal to "sentinel" ignoring case, or when the store runs out; it removes exactly the entries before that key |
| Sweeps.SweepWithMarkerOldest | src/main/java/com/jvra/template/TemplateMatcher.java:139-147 | when the marker is oldest, a sweep removes nothing and only moves the marker to the newest end |
| Sweeps.EntryAfterMarkerSurvives | src/main/java/com/jvra/template/TemplateMatcher.java:135-145 | every entry at or after the marker's position survives a sweep of either kind |
| Sweeps.PrecededByMarkerSurvives | src/main/java/com/jvra/template/TemplateMatcher.java:135-145 | every entry the marker precedes in the order survives the case-insensitive sweep |
| Sweeps.NewestEntrySurvives | src/main/java/com/jvra/template/TemplateMatcher.java:128-147 | with the marker present, the most recently touched entry survives the next sweep |
| Sweeps.SweepWithMarkerNewest | src/main/java/com/jvra/template/TemplateMatcher.java:128-147 | when the marker is newest, an exact sweep removes everything but the marker, which keeps its text |
| Sweeps.TwoSweepsExact | src/main/java/com/jvra/template/TemplateMatcher.java:128-147 | two exact sweeps with nothing touched in between leave only the marker, with its text |
| Sweeps.SweepsAgree | src/main/java/com/jvra/template/TemplateMatcher.java:139 | if no key other than the marker equals it ignoring case, the case-insensitive sweep and the exact sweep coincide |
| Sweeps.TwoSweepsIgnoringCase | src/main/java/com/jvra/template/TemplateMatcher.java:128-147 | two case-insensitive sweeps leave only the marker, provided no other key equals the marker ignoring case |
| Sweeps.LookalikeBlocksEviction | src/main/java/com/jvra/template/TemplateMatcher.java:139-147 | in an access-ordered store whose oldest key equals "sentinel" ignoring case and whose newest key is the marker, the case-insensitive sweep returns the store unchanged |
| Sweeps.ExactSweepEvictsBehindLookalike | src/main/java/com/jvra/template/TemplateMatcher.java:139-147 | on the store ["Sentinel", "a", "sentinel"] the case-insensitive sweep changes nothing, while two exact sweeps evict "a" |
| Keys.CapitalisedSentinelIsLike | src/main/java/com/jvra/template/TemplateMatcher.java:139 | "Sentinel", "SENTINEL" and "ſentinel" (with a long s) pass the case-insensitive test although "Sentinel" is not the marker; "sentinels" and "sentinal" fail it |
| Keys.FoldsToIsCharMatch | src/main/java/com/jvra/template/TemplateMatcher.java:139 | a character folds onto a letter of "sentinel" exactly when the two pass the per-character test of `equalsIgnoreCase`: equal, equal upper-case forms, or equal lower-case forms of those |
| Keys.SentinelLikeIsEqualsIgnoringCase | src/main/java/com/jvra/template/TemplateMatcher.java:139 | `IsSentinelLike(k)` holds exactly when `"sentinel".equalsIgnoreCase(k)` does: same length and every position passes the per-character test |
| Templates.StartPurgeWorker | src/main/java/com/jvra/template/TemplateMatcher.java:116-149 | without auto-purge nothing changes (the interval is not coerced). With auto-purge, a non-positive interval becomes 60 and a positive one is kept. The marker is then mapped to itself, no other key is added or removed, and the worker is scheduled with that interval as delay and period |
| Templates.NewPlain | src/main/java/com/jvra/template/TemplateMatcher.java:39-41 | the no-argument constructor gives an empty insertion-ordered store, no marker and no worker |
| Templates.NewConfigured | src/main/java/com/jvra/template/TemplateMatcher.java:47-54 | with auto-purge the store holds exactly the marker mapped to "sentinel" and the interval is coerced. Without it the store is empty, there is no worker and the interval is stored as given. The invariant holds either way |
| Templates.NewWithPurge | src/main/java/com/jvra/template/TemplateMatcher.java:43-45 | with auto-purge a worker runs every 60 minutes and the store holds the marker; without it there is no worker and the store is empty |
| Templates.Template | src/main/java/com/jvra/template/TemplateMatcher.java:69-80 | Hit: returns the substitution of the cached text and changes no text; the key becomes newest in access order only. Miss with nothing loaded: returns null and the matcher is unchanged. Miss with text t: maps the key to t, makes it newest and returns the substitution of t. The configuration never changes |
| Templates.Purge | src/main/java/com/jvra/template/TemplateMatcher.java:125-148 | a purge cycle keeps the invariant and the configuration, changes no survivor's text, and leaves the marker newest |
| Templates.PurgeExact | src/main/java/com/jvra/template/TemplateMatcher.java:139 | the corrected purge cycle gives the same guarantees |
| Templates.TemplatePreservesInv | src/main/java/com/jvra/template/TemplateMatcher.java:69-80 | rendering keeps the invariant; the marker keeps its text because a request for it is always a hit |
| Templates.HitIgnoresLoader | src/main/java/com/jvra/template/TemplateMatcher.java:70-72 | on a hit the outcome is the same for every loader, so the loader is not consulted |
| Templates.SecondRenderHitsCache | src/main/java/com/jvra/template/TemplateMatcher.java:69-80 | after a successful render the key is cached. Rendering it again substitutes into the text the first call used, whatever the loader now returns |
| Templates.MarkerKeyRendersMarker | src/main/java/com/jvra/template/TemplateMatcher.java:69-72 | with auto-purge, rendering the key "sentinel" yields the substitution of the marker text and never loads a file |
| Templates.RenderedBetweenPurgesSurvives | src/main/java/com/jvra/template/TemplateMatcher.java:69-147 | a template rendered successfully survives the next purge cycle, whatever renders of keys other than "sentinel" happen before that cycle |
| Templates.TwoPurgesLeaveOnlyMarker | src/main/java/com/jvra/template/TemplateMatcher.java:128-147 | two purge cycles with no render in between leave only the marker, provided no other key equals it ignoring case |
| Templates.TwoExactPurgesLeaveOnlyMarker | src/main/java/com/jvra/template/TemplateMatcher.java:128-147 | two corrected purge cycles with no render in between leave only the marker mapped to itself, whatever is cached |
| Templates.Step | src/main/java/com/jvra/template/TemplateMatcher.java:69-147 | a render, or a tick (a purge cycle if a worker exists), keeps the invariant and the worker |
| Templates.Replay | src/main/java/com/jvra/template/TemplateMatcher.java:125-149 | after any sequence of renders and ticks the invariant holds and, with auto-purge, the marker is still mapped to itself; after a final tick it is newest |
| Templates.MarkerSurvivesAnyHistory | src/main/java/com/jvra/template/TemplateMatcher.java:116-149 | from construction with auto-purge, any history keeps exactly one marker with its text and a worker with a positive period; after a tick the marker is newest |
| Templates.RenderNewAppends | src/main/java/com/jvra/template/TemplateMatcher.java:74-79 | rendering a template that is not cached and that the loader finds appends it to the order as newest |
| Templates.TickWithMarkerOldest | src/main/java/com/jvra/template/TemplateMatcher.java:128-147 | a tick whose store has the marker oldest removes nothing and only moves the marker to the newest end |
| Templates.BlockedTickIsIdle | src/main/java/com/jvra/template/TemplateMatcher.java:139-147 | once a key equal to "sentinel" ignoring case is oldest and the marker newest, a tick leaves the whole matcher unchanged |
| Templates.LookalikeRendered | src/main/java/com/jvra/template/TemplateMatcher.java:69-80 | rendering "Sentinel" and then "a" into a new auto-purging matcher gives the order ["sentinel", "Sentinel", "a"] |
| Templates.LookalikeTicked | src/main/java/com/jvra/template/TemplateMatcher.java:69-147 | one purge cycle after those renders gives the order ["Sentinel", "a", "sentinel"] |
| Templates.LookalikeReachable | src/main/java/com/jvra/template/TemplateMatcher.java:69-147 | that state is reached by two renders and one tick from construction, "a" is cached in it, and every further tick leaves the matcher unchanged, so while only ticks follow "a" is never evicted |
| Sweeps.SweepWithLookalikeOldest | src/main/java/com/jvra/template/TemplateMatcher.java:133-147 | when a key equal to "sentinel" ignoring case is oldest, a sweep removes nothing and only reads the marker, moving it to the newest end |
| Templates.RenderMovesToEnd | src/main/java/com/jvra/template/TemplateMatcher.java:69-80 | with auto-purge, a render leaves the order alone or moves the rendered key to the newest end, and never drops a cached entry |
| Templates.RenderKeepsMarkerBefore | src/main/java/com/jvra/template/TemplateMatcher.java:69-80 | a render of any key but "sentinel" keeps the marker before every entry it preceded and, when the render succeeds, before the rendered key |
| Templates.RendersKeepMarkerBefore | src/main/java/com/jvra/template/TemplateMatcher.java:69-80 | the same holds across any sequence of such renders |
| Templates.TickKeepsEntryAfterMarker | src/main/java/com/jvra/template/TemplateMatcher.java:128-147 | a tick keeps every entry the marker precedes |
| Templates.RenderedIsBehindMarker | src/main/java/com/jvra/template/TemplateMatcher.java:69-80 | right after a successful render with auto-purge, the marker precedes the rendered key |
| Templates.MarkerRenderEmptiesNextTick | src/main/java/com/jvra/template/TemplateMatcher.java:70-71 | with auto-purge and no look-alike of the marker cached, rendering "sentinel" and then one tick leave only the marker, evicting entries used within the interval |
| Templates.MarkerRenderEvictsRecentRender | src/main/java/com/jvra/template/TemplateMatcher.java:69-147 | from construction, render "b" (cached), render "sentinel", tick: "b" is evicted |
| Templates.TemplateReserved | src/main/java/com/jvra/template/TemplateMatcher.java:69-80 | the corrected render: with auto-purge, a request for "sentinel" yields the loaded file's substitution, or null when there is none, and leaves the matcher unchanged; every other request behaves as `template` |
| Templates.ReservedKeepsMarkerBefore | src/main/java/com/jvra/template/TemplateMatcher.java:69-80 | with the key reserved, the marker stays before every entry it preceded across any requests |
| Templates.ReservedRenderSurvivesTick | src/main/java/com/jvra/template/TemplateMatcher.java:69-147 | with the key reserved, a template rendered successfully survives the next purge cycle whatever is requested before it |
| Templates.LookalikeHoldsStep | src/main/java/com/jvra/template/TemplateMatcher.java:69-147 | while a key other than the marker that equals "sentinel" ignoring case is oldest, any render of another key or any tick keeps it oldest and evicts nothing |
| Templates.LookalikeHoldsEviction | src/main/java/com/jvra/template/TemplateMatcher.java:69-147 | across any renders and ticks that do not render that key, it stays oldest and every cached entry stays cached |
| Singleton.Construct | src/main/java/com/jvra/template/TemplateMatcher.java:39-54 | each constructor overload yields a matcher satisfying the invariant |
| Singleton.Single | src/main/java/com/jvra/template/TemplateMatcher.java:56-67 | an accessor returns the registered matcher and leaves the registry alone. With no matcher registered, it builds one from its own arguments and registers it |
| Singleton.Run | src/main/java/com/jvra/template/TemplateMatcher.java:56-67 | a sequence of accessor calls returns one matcher per call and leaves one registered |
| Singleton.RegisteredIsStable | src/main/java/com/jvra/template/TemplateMatcher.java:56-67 | once a matcher is registered, every later call returns it and the registry never changes |
| Singleton.FirstCallWins | src/main/java/com/jvra/template/TemplateMatcher.java:56-67 | from an empty registry, every call returns the matcher built from the first call's arguments |
| Singleton.LaterConfigurationIgnored | src/main/java/com/jvra/template/TemplateMatcher.java:56-67 | after a plain first call, a later call asking for auto-purge still gets a matcher with no worker and no marker |

## Left out

- File loading (`loadTemplate`, lines 83-108) is replaced by the loader parameter. The model does not separate a complete read from the partial text returned after an `IOException`; both are "some text", and both are cached.
- `StrSubstitutor` (line 112) is a third-party library and is replaced by the substitution parameter. Its placeholder grammar and recursion are not modelled.
- Threads and timing are not modelled. This covers `ScheduledExecutorService`, `TimeUnit` periods and real time (lines 124-149): a purge cycle is one atomic step (`Tick`) and the unit is only recorded. The unlocked snapshot-then-iterate race of lines 128-131 and the unsynchronised `single` accessors are concurrency defects outside a sequential model.
- The capacity and load factor of the `LinkedHashMap` (line 48) are performance tuning and have no visible effect.
- Strings are sequences of Unicode scalar values, not UTF-16 code units. A key containing a supplementary character can never equal the marker under either test, so the sweep behaves the same.
- A `null` template identifier is not modelled. Java's map would accept it as a key, but `Paths.get(null)` fails before anything could be cached.
- A `null` time unit is not modelled. With auto-purge on, `single(true, interval, null)` stores the marker and then fails with a `NullPointerException` when `scheduleAtFixedRate` is called (lines 125-149, reached from line 53). The assignment at line 66 never happens, so `single` stays null and the next accessor call constructs a matcher from its own arguments. The model's `TimeUnit` has no null value.
- Java's case mapping (`Character.toUpperCase`, `Character.toLowerCase`) is modelled only on ASCII letters and the three non-ASCII characters that map onto letters of "sentinel". Other characters are left as they are, which changes no comparison against "sentinel".
- Instance identity is modelled as the registered value, because `single` returns the stored matcher rather than a copy.
- Sweeps.TwoSweepsIgnoringCase: assumes no cached key other than the marker equals `"sentinel"` ignoring case, because the code does not deliver two-cycle eviction otherwise (see Findings).
- Templates.TwoPurgesLeaveOnlyMarker: same assumption as `Sweeps.TwoSweepsIgnoringCase`, for the same reason.
- Templates.RenderedBetweenPurgesSurvives: excludes renders of the key "sentinel" before the tick, because such a render makes the tick evict the template (see Findings); `Templates.ReservedRenderSurvivesTick` drops the exclusion for the corrected render.

## Findings

| source | as written | input that shows it | evidently intended | confidence | as-written member | corrected member |
|---|---|---|---|---|---|---|
| src/main/java/com/jvra/template/TemplateMatcher.java:139 | the sweep stops at the first key equal to "sentinel" ignoring case | a template cached under the key "Sentinel" that is oldest, as in the order ["Sentinel", "a", "sentinel"]: every later sweep removes nothing, so "a" stays cached until "Sentinel" itself is rendered again | stop only at the marker itself, so an entry untouched for two cycles is evicted | medium, not executed | Sweeps.LookalikeBlocksEviction, Templates.LookalikeReachable, Templates.LookalikeHoldsEviction | Sweeps.SweepExact (two-cycle eviction: Sweeps.TwoSweepsExact, Templates.TwoExactPurgesLeaveOnlyMarker) |
| src/main/java/com/jvra/template/TemplateMatcher.java:70-71 | the marker is an ordinary cache entry under the key "sentinel" (put at line 122), so a caller's request for that key is a hit that makes the marker newest | from construction with auto-purge: render "b", render "sentinel", one tick; "b" is evicted although it was used within the interval | callers cannot touch the marker, so a template rendered since the last cycle survives the next one | medium, not executed | Templates.MarkerRenderEvictsRecentRender, Templates.MarkerRenderEmptiesNextTick | Templates.TemplateReserved (survival: Templates.ReservedRenderSurvivesTick) |

=== FILE: keys.dfy ===
/** Template identifiers, template texts and the reserved sweep marker.

    Java strings become Dafny strings. The only comparison the cache engine
    makes that is not plain equality is `equalsIgnoreCase` against the
    marker "sentinel"; it is modelled here for exactly that comparison.
 */
module Keys {

  /** A template identifier (a file path in TemplateMatcher). */
  type Key = string

  /** The raw text of a loaded template. */
  type Text = string

  /** The named parameters substituted into a template. */
  type Params = map<string, string>

  /** Stands in for a Java reference that may be null. */
  datatype Option<+T> = None | Some(value: T)

  /** The reserved key (and value) of the sweep marker. */
  const Sentinel: string := "sentinel"

  /** True when `c` matches the lower-case ASCII letter `l` under Java's
      `String.equalsIgnoreCase`, which accepts a pair of characters when their
      upper-case forms agree or the lower-case forms of those agree. Besides
      the two ASCII cases, three non-ASCII characters fold onto letters of the
      marker: LATIN SMALL LETTER LONG S (upper-cases to 'S'), LATIN SMALL
      LETTER DOTLESS I (upper-cases to 'I') and LATIN CAPITAL LETTER I WITH
      DOT ABOVE (lower-cases to 'i'). The folding is complete only for the
      letters of the marker: other letters have further partners, such as
      KELVIN SIGN, which lower-cases to 'k'. */
  predicate FoldsTo(c: char, l: char)
    requires 'a' <= l <= 'z'
  {
    || c == l
    || c as int == l as int - 32
    || (l == 's' && c == '\U{017F}')
    || (l == 'i' && (c == '\U{0131}' || c == '\U{0130}'))
  }

  /** `"sentinel".equalsIgnoreCase(k)`. */
  predicate IsSentinelLike(k: Key) {
    && |k| == |Sentinel|
    && forall i :: 0 <= i < |k| ==> FoldsTo(k[i], Sentinel[i])
  }

  /** Exact equality with the marker: the comparison the sweep needs. */
  predicate IsSentinel(k: Key) {
    k == Sentinel
  }

  /** The marker itself passes the case-insensitive test, so the exact
      test is the stronger of the two. */
  lemma SentinelIsSentinelLike(k: Key)
    ensures IsSentinel(k) ==> IsSentinelLike(k)
  {
  }

  /** The case-insensitive test admits keys other than the marker. */
  lemma CapitalisedSentinelIsLike()
    ensures IsSentinelLike("Sentinel") && !IsSentinel("Sentinel")
    ensures IsSentinelLike("SENTINEL") && IsSentinelLike("\U{017F}entinel")
    ensures !IsSentinelLike("sentinels") && !IsSentinelLike("sentinal")
  {
    assert "sentinal"[6] == 'a';
  }

  /** `Character.toUpperCase` on the characters that matter for the marker:
      ASCII letters, LATIN SMALL LETTER LONG S and LATIN SMALL LETTER
      DOTLESS I. Every other character is left as it is, which differs from
      Java only for characters whose upper- and lower-case forms lie outside
      the letters of "sentinel". */
  function ToUpper(c: char): char {
    if 'a' <= c <= 'z' then (c as int - 32) as char
    else if c == '\U{017F}' then 'S'
    else if c == '\U{0131}' then 'I'
    else c
  }

  /** `Character.toLowerCase` on the characters that matter for the marker:
      ASCII letters and LATIN CAPITAL LETTER I WITH DOT ABOVE. */
  function ToLower(c: char): char {
    if 'A' <= c <= 'Z' then (c as int + 32) as char
    else if c == '\U{0130}' then 'i'
    else c
  }

  /** The per-character test of `String.regionMatches(true, ...)`, which
      `equalsIgnoreCase` applies position by position: equal characters,
      equal upper-case forms, or equal lower-case forms of those. */
  predicate CharsMatchIgnoringCase(a: char, b: char) {
    || a == b
    || ToUpper(a) == ToUpper(b)
    || ToLower(ToUpper(a)) == ToLower(ToUpper(b))
  }

  /** `String.equalsIgnoreCase`: equal lengths and every position matches. */
  predicate EqualsIgnoringCase(a: string, b: string) {
    && |a| == |b|
    && forall i :: 0 <= i < |a| ==> CharsMatchIgnoringCase(a[i], b[i])
  }

  /** The folding of one character onto a letter of the marker is exactly
      the per-character test of `equalsIgnoreCase`. */
  lemma FoldsToIsCharMatch(c: char, l: char)
    requires l in Sentinel
    ensures FoldsTo(c, l) <==> CharsMatchIgnoringCase(l, c)
  {
    assert ToLower(ToUpper(l)) == l;
  }

  /** `IsSentinelLike` is `"sentinel".equalsIgnoreCase(k)` in both
      directions. */
  lemma SentinelLikeIsEqualsIgnoringCase(k: Key)
    ensures IsSentinelLike(k) <==> EqualsIgnoringCase(Sentinel, k)
  {
    forall i | 0 <= i < |k| && i < |Sentinel|
      ensures FoldsTo(k[i], Sentinel[i]) <==> CharsMatchIgnoringCase(Sentinel[i], k[i])
    {
      FoldsToIsCharMatch(k[i], Sentinel[i]);
    }
  }
}

=== FILE: matcher.dfy ===
/** The `TemplateMatcher` object: its configuration, the purge worker set
    up at construction, the rendering operation `template`, and the purge
    cycle the worker runs (TemplateMatcher.java).

    The file loader and the placeholder substitutor are parameters:
    `load(key)` yields the template's text or None (Java's null, returned
    when `Files.exists` reports no file), and `subst(text, params)` is the substitution. */
module Templates {
  import opened Keys
  import opened Order
  import opened Cache
  import opened Sweeps

  /** `java.util.concurrent.TimeUnit`. */
  datatype TimeUnit = Nanoseconds | Microseconds | Milliseconds | Seconds | Minutes | Hours | Days

  /** Java's 64-bit `long`. */
  newtype Long = x: int | -0x8000_0000_0000_0000 <= x < 0x8000_0000_0000_0000

  /** A fixed-rate task: first run after `initialDelay`, then every `period`. */
  datatype Schedule = Schedule(initialDelay: Long, period: Long, unit: TimeUnit)

  /** The matcher's fields; `worker` is the purge task, when one was scheduled. */
  datatype TemplateMatcher = TemplateMatcher(
    store: Store,
    autoPurge: bool,
    intervalToPurge: Long,
    unit: TimeUnit,
    worker: Option<Schedule>)

  /** What every constructed matcher satisfies: a well-formed store that is
      access-ordered exactly when auto-purge is on; with auto-purge, the
      marker mapped to itself and a worker running at a positive interval;
      without it, no worker. */
  ghost predicate Inv(m: TemplateMatcher) {
    && Valid(m.store)
    && m.store.accessOrder == m.autoPurge
    && (m.autoPurge ==>
          && Sentinel in m.store.texts
          && m.store.texts[Sentinel] == Sentinel
          && m.intervalToPurge > 0
          && m.worker == Some(Schedule(m.intervalToPurge, m.intervalToPurge, m.unit)))
    && (!m.autoPurge ==> m.worker == None)
  }

  /** `startPurgeWorker`: does nothing without auto-purge; otherwise replaces
      a non-positive interval by 60, inserts the marker and schedules the
      sweep at that interval. */
  function StartPurgeWorker(m: TemplateMatcher): (r: TemplateMatcher)
    requires Valid(m.store)
    ensures !m.autoPurge ==> r == m
    ensures m.autoPurge ==> r.intervalToPurge > 0
    ensures m.autoPurge && m.intervalToPurge > 0 ==> r.intervalToPurge == m.intervalToPurge
    ensures m.autoPurge && m.intervalToPurge <= 0 ==> r.intervalToPurge == 60
    ensures m.autoPurge ==> r.worker == Some(Schedule(r.intervalToPurge, r.intervalToPurge, m.unit))
    ensures m.autoPurge ==> Valid(r.store) && Sentinel in r.store.texts && r.store.texts[Sentinel] == Sentinel
    ensures m.autoPurge ==> forall k :: k != Sentinel ==> (k in r.store.texts <==> k in m.store.texts)
    ensures r.autoPurge == m.autoPurge && r.unit == m.unit && r.store.accessOrder == m.store.accessOrder
  {
    if !m.autoPurge then m
    else
      var interval: Long := if m.intervalToPurge <= 0 then 60 else m.intervalToPurge;
      m.(intervalToPurge := interval,
         store := Put(m.store, Sentinel, Sentinel),
         worker := Some(Schedule(interval, interval, m.unit)))
  }

  /** `TemplateMatcher()`: an insertion-ordered store and no purging; the
      other fields keep their Java defaults. */
  function NewPlain(): (m: TemplateMatcher)
    ensures Inv(m)
    ensures !m.autoPurge && !m.store.accessOrder
    ensures m.store.order == [] && m.worker == None
  {
    TemplateMatcher(Empty(false), false, 0, Minutes, None)
  }

  /** `TemplateMatcher(autoPurge, intervalToPurge, unit)`. */
  function NewConfigured(autoPurge: bool, intervalToPurge: Long, unit: TimeUnit): (m: TemplateMatcher)
    ensures Inv(m)
    ensures m.autoPurge == autoPurge && m.unit == unit
    ensures autoPurge ==> m.store.order == [Sentinel] && m.store.texts == map[Sentinel := Sentinel]
    ensures autoPurge && intervalToPurge > 0 ==> m.intervalToPurge == intervalToPurge
    ensures autoPurge && intervalToPurge <= 0 ==> m.intervalToPurge == 60
    ensures !autoPurge ==> m.store.order == [] && m.worker == None && m.intervalToPurge == intervalToPurge
  {
    var r := StartPurgeWorker(TemplateMatcher(Empty(autoPurge), autoPurge, intervalToPurge, unit, None));
    assert autoPurge ==> r.store.texts.Keys == {Sentinel};
    r
  }

  /** `TemplateMatcher(autoPurge)`: an interval of 60 minutes. */
  function NewWithPurge(autoPurge: bool): (m: TemplateMatcher)
    ensures Inv(m) && m.autoPurge == autoPurge
    ensures autoPurge ==> m.worker == Some(Schedule(60, 60, Minutes)) && m.store.order == [Sentinel]
    ensures !autoPurge ==> m.worker == None && m.store.order == []
  {
    NewConfigured(autoPurge, 60, Minutes)
  }

  /** The matcher after a call of `template`, and the call's return value
      (None standing for Java's null). */
  datatype Rendered = Rendered(matcher: TemplateMatcher, output: Option<Text>)

  /** `template(template, params)`: on a cache hit substitute into the cached
      text (reading it with `get`); on a miss call the loader, return null
      when it finds nothing, else cache the loaded text and substitute. */
  function Template(m: TemplateMatcher, template: Key, params: Params,
                    load: Key -> Option<Text>, subst: (Text, Params) -> Text): (r: Rendered)
    requires Valid(m.store)
    ensures Valid(r.matcher.store)
    ensures r.matcher.(store := m.store) == m
    ensures r.matcher.store.accessOrder == m.store.accessOrder
    ensures template in m.store.texts ==>
              && r.output == Some(subst(m.store.texts[template], params))
              && r.matcher.store.texts == m.store.texts
              && (m.store.accessOrder ==> Last(r.matcher.store.order) == template)
              && (!m.store.accessOrder ==> r.matcher.store.order == m.store.order)
              && Without(r.matcher.store.order, template) == Without(m.store.order, template)
    ensures template !in m.store.texts && load(template).None? ==> r == Rendered(m, None)
    ensures template !in m.store.texts && load(template).Some? ==>
              && r.output == Some(subst(load(template).value, params))
              && r.matcher.store.texts == m.store.texts[template := load(template).value]
              && template in r.matcher.store.order
              && Last(r.matcher.store.order) == template
              && Without(r.matcher.store.order, template) == m.store.order
  {
    if ContainsKey(m.store, template) then
      var got := Get(m.store, template);
      Rendered(m.(store := got.store), Some(subst(got.value.value, params)))
    else
      match load(template)
      case None => Rendered(m, None)
      case Some(loaded) =>
        Rendered(m.(store := Put(m.store, template, loaded)), Some(subst(loaded, params)))
  }

  /** One run of the purge worker, with the case-insensitive marker test of
      TemplateMatcher.java line 139. It exists only when a worker was
      scheduled. */
  function Purge(m: TemplateMatcher): (r: TemplateMatcher)
    requires Inv(m) && m.worker.Some?
    ensures Inv(r)
    ensures r.(store := m.store) == m
    ensures Last(r.store.order) == Sentinel
    ensures forall k :: k in r.store.texts ==> k in m.store.texts && r.store.texts[k] == m.store.texts[k]
  {
    m.(store := SweepIgnoringCase(m.store))
  }

  /** The exact-marker purge cycle. */
  function PurgeExact(m: TemplateMatcher): (r: TemplateMatcher)
    requires Inv(m) && m.worker.Some?
    ensures Inv(r)
    ensures r.(store := m.store) == m
    ensures Last(r.store.order) == Sentinel
    ensures forall k :: k in r.store.texts ==> k in m.store.texts && r.store.texts[k] == m.store.texts[k]
  {
    m.(store := SweepExact(m.store))
  }

  /** Rendering never breaks the invariant; in particular the marker keeps
      its text, because a request for it is always a hit. */
  lemma TemplatePreservesInv(m: TemplateMatcher, template: Key, params: Params,
                             load: Key -> Option<Text>, subst: (Text, Params) -> Text)
    requires Inv(m)
    ensures Inv(Template(m, template, params, load, subst).matcher)
  {
  }

  /** A hit never consults the loader: any two loaders give the same
      outcome. */
  lemma HitIgnoresLoader(m: TemplateMatcher, template: Key, params: Params,
                         load: Key -> Option<Text>, load': Key -> Option<Text>,
                         subst: (Text, Params) -> Text)
    requires Valid(m.store) && template in m.store.texts
    ensures Template(m, template, params, load, subst) == Template(m, template, params, load', subst)
  {
  }

  /** After a successful render, the next render of the same template is a
      hit: it substitutes into the text the first call used, whatever the
      loader would now return. */
  lemma SecondRenderHitsCache(m: TemplateMatcher, template: Key, params: Params, params': Params,
                              load: Key -> Option<Text>, load': Key -> Option<Text>,
                              subst: (Text, Params) -> Text)
    requires Valid(m.store)
    requires Template(m, template, params, load, subst).output.Some?
    ensures var m' := Template(m, template, params, load, subst).matcher;
            var text := if template in m.store.texts then m.store.texts[template] else load(template).value;
            && template in m'.store.texts
            && Template(m', template, params', load', subst).output == Some(subst(text, params'))
  {
  }

  /** With auto-purge on, requesting the marker's own key is a hit that
      renders the marker text; the loader is never asked for it. */
  lemma MarkerKeyRendersMarker(m: TemplateMatcher, params: Params,
                               load: Key -> Option<Text>, subst: (Text, Params) -> Text)
    requires Inv(m) && m.autoPurge
    ensures Template(m, Sentinel, params, load, subst).output == Some(subst(Sentinel, params))
  {
  }

  /** Two purge cycles with no render in between leave only the marker,
      provided no cached key other than the marker equals it ignoring case. */
  lemma TwoPurgesLeaveOnlyMarker(m: TemplateMatcher)
    requires Inv(m) && m.autoPurge
    requires forall k :: k in m.store.order && IsSentinelLike(k) ==> k == Sentinel
    ensures Purge(Purge(m)).store.order == [Sentinel]
  {
    TwoSweepsIgnoringCase(m.store);
  }

  /** With the exact marker test, two purge cycles with no render in between
      leave only the marker, whatever keys are cached. */
  lemma TwoExactPurgesLeaveOnlyMarker(m: TemplateMatcher)
    requires Inv(m) && m.autoPurge
    ensures PurgeExact(PurgeExact(m)).store.order == [Sentinel]
    ensures PurgeExact(PurgeExact(m)).store.texts == map[Sentinel := Sentinel]
  {
    TwoSweepsExact(m.store);
  }

  /** Something that happens to a matcher: a caller renders a template, or
      the purge interval elapses. */
  datatype Event = Render(template: Key, params: Params) | Tick

  /** The effect of one event. A tick runs the purge cycle when a worker was
      scheduled and does nothing otherwise. */
  function Step(m: TemplateMatcher, e: Event, load: Key -> Option<Text>,
                subst: (Text, Params) -> Text): (r: TemplateMatcher)
    requires Inv(m)
    ensures Inv(r)
    ensures r.autoPurge == m.autoPurge && r.worker == m.worker
  {
    match e
    case Render(template, params) =>
      TemplatePreservesInv(m, template, params, load, subst);
      Template(m, template, params, load, subst).matcher
    case Tick =>
      if m.worker.Some? then Purge(m) else m
  }

  /** Events applied in order, oldest first. */
  function Replay(m: TemplateMatcher, events: seq<Event>, load: Key -> Option<Text>,
                  subst: (Text, Params) -> Text): (r: TemplateMatcher)
    requires Inv(m)
    ensures Inv(r)
    ensures r.autoPurge == m.autoPurge
    ensures m.autoPurge ==> Sentinel in r.store.texts && r.store.texts[Sentinel] == Sentinel
    ensures m.autoPurge && |events| > 0 && Last(events).Tick? ==> Last(r.store.order) == Sentinel
    decreases |events|
  {
    if |events| == 0 then m
    else
      var before := Replay(m, events[..|events| - 1], load, subst);
      Step(before, Last(events), load, subst)
  }

  /** From construction with auto-purge, whatever renders and ticks happen,
      the marker stays in the store with its own text, and after every tick
      it is the newest entry. */
  lemma MarkerSurvivesAnyHistory(interval: Long, unit: TimeUnit, events: seq<Event>,
                                   load: Key -> Option<Text>, subst: (Text, Params) -> Text)
    ensures var r := Replay(NewConfigured(true, interval, unit), events, load, subst);
            && Sentinel in r.store.order
            && r.store.texts[Sentinel] == Sentinel
            && r.worker.Some? && r.worker.value.period > 0
            && (|events| > 0 && Last(events).Tick? ==> Last(r.store.order) == Sentinel)
  {
  }

  /** Replaying one more event is one more step. */
  lemma ReplaySnoc(m: TemplateMatcher, events: seq<Event>, e: Event,
                   load: Key -> Option<Text>, subst: (Text, Params) -> Text)
    requires Inv(m)
    ensures Replay(m, events + [e], load, subst) == Step(Replay(m, events, load, subst), e, load, subst)
  {
    assert (events + [e])[..|events|] == events;
  }

  /** Every event is a render of a key other than the marker's. */
  predicate RendersAvoidingMarker(events: seq<Event>) {
    forall i :: 0 <= i < |events| ==> events[i].Render? && events[i].template != Sentinel
  }

  /** With auto-purge on, a render either leaves the order alone (the loader
      found nothing) or moves the rendered key to the newest end, and it
      never drops a cached entry. */
  lemma RenderMovesToEnd(m: TemplateMatcher, k: Key, params: Params,
                         load: Key -> Option<Text>, subst: (Text, Params) -> Text)
    requires Inv(m) && m.autoPurge
    ensures var o := Step(m, Render(k, params), load, subst).store.order;
            o == m.store.order || o == MoveToEnd(m.store.order, k)
    ensures forall t :: t in m.store.texts ==> t in Step(m, Render(k, params), load, subst).store.texts
  {
  }

  /** A render of any key but the marker's keeps the marker at or before an
      entry it preceded and, when the render succeeds, puts the rendered key
      itself behind the marker. */
  lemma RenderKeepsMarkerBefore(m: TemplateMatcher, k: Key, params: Params, t: Key,
                                load: Key -> Option<Text>, subst: (Text, Params) -> Text)
    requires Inv(m) && m.autoPurge && k != Sentinel
    requires Precedes(m.store.order, Sentinel, t)
    ensures Precedes(Step(m, Render(k, params), load, subst).store.order, Sentinel, t)
    ensures Template(m, k, params, load, subst).output.Some? ==>
              Precedes(Step(m, Render(k, params), load, subst).store.order, Sentinel, k)
  {
    if Template(m, k, params, load, subst).output.Some? {
      RenderedIsBehindMarker(m, k, params, load, subst);
    }
    RenderMovesToEnd(m, k, params, load, subst);
    if Step(m, Render(k, params), load, subst).store.order != m.store.order {
      MoveToEndKeepsPrecedes(m.store.order, k, Sentinel, t);
    }
  }

  /** The marker stays at or before `t` across any renders of keys other
      than the marker's. */
  lemma {:induction false} RendersKeepMarkerBefore(m: TemplateMatcher, events: seq<Event>, t: Key,
                                                   load: Key -> Option<Text>, subst: (Text, Params) -> Text)
    requires Inv(m) && m.autoPurge && RendersAvoidingMarker(events)
    requires Precedes(m.store.order, Sentinel, t)
    ensures Precedes(Replay(m, events, load, subst).store.order, Sentinel, t)
    decreases |events|
  {
    if |events| > 0 {
      var prefix := events[..|events| - 1];
      assert RendersAvoidingMarker(prefix) by {
        forall i | 0 <= i < |prefix| ensures prefix[i].Render? && prefix[i].template != Sentinel {
          assert prefix[i] == events[i];
        }
      }
      RendersKeepMarkerBefore(m, prefix, t, load, subst);
      var e := events[|events| - 1];
      RenderKeepsMarkerBefore(Replay(m, prefix, load, subst), e.template, e.params, t, load, subst);
    }
  }

  /** A tick keeps every entry the marker precedes. */
  lemma TickKeepsEntryAfterMarker(m: TemplateMatcher, t: Key,
                                  load: Key -> Option<Text>, subst: (Text, Params) -> Text)
    requires Inv(m) && m.autoPurge
    requires Precedes(m.store.order, Sentinel, t)
    ensures t in Step(m, Tick, load, subst).store.texts
  {
    PrecededByMarkerSurvives(m.store, t);
  }

  /** Right after a successful render with auto-purge on, the marker is at
      or before the rendered template. */
  lemma RenderedIsBehindMarker(m: TemplateMatcher, template: Key, params: Params,
                               load: Key -> Option<Text>, subst: (Text, Params) -> Text)
    requires Inv(m) && m.autoPurge
    requires Template(m, template, params, load, subst).output.Some?
    ensures Precedes(Template(m, template, params, load, subst).matcher.store.order, Sentinel, template)
  {
    TemplatePreservesInv(m, template, params, load, subst);
    var o := Template(m, template, params, load, subst).matcher.store.order;
    var i :| 0 <= i < |o| && o[i] == Sentinel;
    PrecedesAt(o, i, |o| - 1);
  }

  /** A template rendered successfully survives the next purge cycle,
      whatever templates other than the marker's own key are rendered
      before that cycle. */
  lemma RenderedBetweenPurgesSurvives(m: TemplateMatcher, template: Key, params: Params, events: seq<Event>,
                                      load: Key -> Option<Text>, subst: (Text, Params) -> Text)
    requires Inv(m) && m.autoPurge && RendersAvoidingMarker(events)
    ensures var r := Template(m, template, params, load, subst);
            r.output.Some? ==>
              template in Step(Replay(r.matcher, events, load, subst), Tick, load, subst).store.texts
  {
    var r := Template(m, template, params, load, subst);
    if r.output.Some? {
      TemplatePreservesInv(m, template, params, load, subst);
      RenderedIsBehindMarker(m, template, params, load, subst);
      RendersKeepMarkerBefore(r.matcher, events, template, load, subst);
      TickKeepsEntryAfterMarker(Replay(r.matcher, events, load, subst), template, load, subst);
    }
  }

  /** Rendering the marker's own key makes the marker newest, so when no
      other cached key passes the case-insensitive test the next tick
      evicts everything else, including templates rendered since the last
      tick. */
  lemma MarkerRenderEmptiesNextTick(m: TemplateMatcher, params: Params,
                                    load: Key -> Option<Text>, subst: (Text, Params) -> Text)
    requires Inv(m) && m.autoPurge
    requires forall k :: k in m.store.order && IsSentinelLike(k) ==> k == Sentinel
    ensures var m1 := Step(m, Render(Sentinel, params), load, subst);
            Step(m1, Tick, load, subst).store.order == [Sentinel]
  {
    var m1 := Step(m, Render(Sentinel, params), load, subst);
    assert forall k :: k in m1.store.order ==> k in m.store.order;
    SweepsAgree(m1.store);
    SweepWithMarkerNewest(m1.store);
  }

  /** From construction: a template "b" is rendered and cached, then a
      caller renders the marker's key "sentinel", and the next tick evicts
      "b" although it was used within the interval. */
  lemma MarkerRenderEvictsRecentRender(params: Params, load: Key -> Option<Text>,
                                       subst: (Text, Params) -> Text)
    requires load("b").Some?
    ensures var m1 := Step(NewConfigured(true, 60, Minutes), Render("b", params), load, subst);
            && "b" in m1.store.texts
            && "b" !in Step(Step(m1, Render(Sentinel, params), load, subst), Tick, load, subst).store.texts
  {
    var m0 := NewConfigured(true, 60, Minutes);
    RenderNewAppends(m0, "b", params, load, subst);
    var m1 := Step(m0, Render("b", params), load, subst);
    assert !IsSentinelLike("b");
    assert forall k :: k in m1.store.order && IsSentinelLike(k) ==> k == Sentinel by {
      AppendSingles(Sentinel, "b", "b");
    }
    MarkerRenderEmptiesNextTick(m1, params, load, subst);
  }

  /** `template` with the marker's key reserved: with auto-purge on, a
      request for "sentinel" is served by the loader and never touches the
      store, so no caller can move the marker; every other request is
      `Template`. */
  function TemplateReserved(m: TemplateMatcher, template: Key, params: Params,
                            load: Key -> Option<Text>, subst: (Text, Params) -> Text): (r: Rendered)
    requires Inv(m)
    ensures Inv(r.matcher)
    ensures m.autoPurge && template == Sentinel ==> r.matcher == m
    ensures m.autoPurge && template == Sentinel ==>
              (r.output.Some? <==> load(template).Some?) &&
              (r.output.Some? ==> r.output.value == subst(load(template).value, params))
    ensures !m.autoPurge || template != Sentinel ==> r == Template(m, template, params, load, subst)
  {
    if m.autoPurge && template == Sentinel then
      match load(template)
      case None => Rendered(m, None)
      case Some(loaded) => Rendered(m, Some(subst(loaded, params)))
    else
      TemplatePreservesInv(m, template, params, load, subst);
      Template(m, template, params, load, subst)
  }

  /** Requests served one after another by `TemplateReserved`, oldest
      first. */
  function RenderAllReserved(m: TemplateMatcher, requests: seq<(Key, Params)>,
                             load: Key -> Option<Text>, subst: (Text, Params) -> Text): (r: TemplateMatcher)
    requires Inv(m)
    ensures Inv(r)
    ensures r.autoPurge == m.autoPurge && r.worker == m.worker
    decreases |requests|
  {
    if |requests| == 0 then m
    else
      var before := RenderAllReserved(m, requests[..|requests| - 1], load, subst);
      var (k, params) := Last(requests);
      TemplateReserved(before, k, params, load, subst).matcher
  }

  /** With the key reserved, the marker stays at or before `t` across any
      requests at all. */
  lemma {:induction false} ReservedKeepsMarkerBefore(m: TemplateMatcher, requests: seq<(Key, Params)>, t: Key,
                                                     load: Key -> Option<Text>, subst: (Text, Params) -> Text)
    requires Inv(m) && m.autoPurge
    requires Precedes(m.store.order, Sentinel, t)
    ensures Precedes(RenderAllReserved(m, requests, load, subst).store.order, Sentinel, t)
    decreases |requests|
  {
    if |requests| > 0 {
      var prefix := requests[..|requests| - 1];
      ReservedKeepsMarkerBefore(m, prefix, t, load, subst);
      var (k, params) := Last(requests);
      if k != Sentinel {
        RenderKeepsMarkerBefore(RenderAllReserved(m, prefix, load, subst), k, params, t, load, subst);
      }
    }
  }

  /** With the marker's key reserved, a template rendered successfully
      survives the next purge cycle whatever is requested before it. */
  lemma ReservedRenderSurvivesTick(m: TemplateMatcher, template: Key, params: Params,
                                   requests: seq<(Key, Params)>,
                                   load: Key -> Option<Text>, subst: (Text, Params) -> Text)
    requires Inv(m) && m.autoPurge
    ensures var r := TemplateReserved(m, template, params, load, subst);
            r.output.Some? ==>
              template in Step(RenderAllReserved(r.matcher, requests, load, subst), Tick, load, subst).store.texts
  {
    var r := TemplateReserved(m, template, params, load, subst);
    if r.output.Some? && template != Sentinel {
      RenderedIsBehindMarker(m, template, params, load, subst);
      ReservedKeepsMarkerBefore(r.matcher, requests, template, load, subst);
      TickKeepsEntryAfterMarker(RenderAllReserved(r.matcher, requests, load, subst), template, load, subst);
    }
  }

  /** Once a cached key other than the marker that passes the
      case-insensitive test is oldest, one event keeps it oldest and evicts
      nothing, unless the event renders that key. */
  lemma LookalikeHoldsStep(m: TemplateMatcher, e: Event,
                           load: Key -> Option<Text>, subst: (Text, Params) -> Text)
    requires Inv(m) && m.autoPurge
    requires |m.store.order| > 0 && IsSentinelLike(m.store.order[0]) && m.store.order[0] != Sentinel
    requires e.Render? ==> e.template != m.store.order[0]
    ensures var r := Step(m, e, load, subst);
            && |r.store.order| > 0 && r.store.order[0] == m.store.order[0]
            && forall k :: k in m.store.texts ==> k in r.store.texts
  {
    match e
    case Tick =>
      SweepWithLookalikeOldest(m.store);
      MoveToEndKeepsOldest(m.store.order, Sentinel);
    case Render(k, params) =>
      RenderMovesToEnd(m, k, params, load, subst);
      if Step(m, e, load, subst).store.order != m.store.order {
        MoveToEndKeepsOldest(m.store.order, k);
      }
  }

  /** Whatever renders and ticks follow, a marker-like key that is oldest
      stays oldest and every cached entry stays cached, until that key
      itself is rendered. */
  lemma {:induction false} LookalikeHoldsEviction(m: TemplateMatcher, events: seq<Event>,
                                                  load: Key -> Option<Text>, subst: (Text, Params) -> Text)
    requires Inv(m) && m.autoPurge
    requires |m.store.order| > 0 && IsSentinelLike(m.store.order[0]) && m.store.order[0] != Sentinel
    requires forall i :: 0 <= i < |events| && events[i].Render? ==> events[i].template != m.store.order[0]
    ensures var r := Replay(m, events, load, subst);
            && |r.store.order| > 0 && r.store.order[0] == m.store.order[0]
            && forall k :: k in m.store.texts ==> k in r.store.texts
    decreases |events|
  {
    if |events| > 0 {
      var prefix := events[..|events| - 1];
      assert forall i :: 0 <= i < |prefix| && prefix[i].Render? ==> prefix[i].template != m.store.order[0] by {
        forall i | 0 <= i < |prefix| && prefix[i].Render?
          ensures prefix[i].template != m.store.order[0]
        {
          assert prefix[i] == events[i];
        }
      }
      LookalikeHoldsEviction(m, prefix, load, subst);
      LookalikeHoldsStep(Replay(m, prefix, load, subst), events[|events| - 1], load, subst);
    }
  }

  /** The sequence identities the concrete histories below need, stated
      over a type parameter: proved once here, they spare the solver from
      comparing displays of concrete strings element by element. */
  lemma AppendSingles<T>(x: T, y: T, z: T)
    ensures [] + [x] == [x] && [x] + [y] == [x, y] && [x, y] + [z] == [x, y, z]
  {
  }

  /** Moving the oldest of three elements to the newest end. */
  lemma RotateOldest<T>(s: seq<T>, x: T, y: T, z: T)
    requires s == [x, y, z]
    ensures s[1..] + [x] == [y, z, x]
  {
  }

  /** Rendering a template that is not cached and that the loader finds
      appends it to the store as the newest entry. */
  lemma RenderNewAppends(m: TemplateMatcher, template: Key, params: Params,
                         load: Key -> Option<Text>, subst: (Text, Params) -> Text)
    requires Inv(m) && template !in m.store.texts && load(template).Some?
    ensures Step(m, Render(template, params), load, subst).store.order == m.store.order + [template]
  {
  }

  /** Rendering "Sentinel" and then "a" into a fresh auto-purging matcher
      appends both behind the marker. */
  lemma LookalikeRendered(params: Params, load: Key -> Option<Text>,
                          subst: (Text, Params) -> Text)
    requires load("Sentinel").Some? && load("a").Some?
    ensures var m := Replay(NewConfigured(true, 60, Minutes),
                            [Render("Sentinel", params), Render("a", params)], load, subst);
            m.store.order == [Sentinel, "Sentinel", "a"]
  {
    var m0 := NewConfigured(true, 60, Minutes);
    var first := Render("Sentinel", params);
    var second := Render("a", params);
    AppendSingles(first, second, Tick);
    ReplaySnoc(m0, [], first, load, subst);
    var m1 := Replay(m0, [first], load, subst);
    RenderNewAppends(m0, "Sentinel", params, load, subst);
    ReplaySnoc(m0, [first], second, load, subst);
    RenderNewAppends(m1, "a", params, load, subst);
    AppendSingles(Sentinel, "Sentinel", "a");
  }

  /** A tick on an auto-purging matcher whose oldest entry is the marker
      only moves the marker to the newest end. */
  lemma TickWithMarkerOldest(m: TemplateMatcher, load: Key -> Option<Text>,
                             subst: (Text, Params) -> Text)
    requires Inv(m) && m.autoPurge
    requires |m.store.order| > 0 && m.store.order[0] == Sentinel
    ensures Step(m, Tick, load, subst).store.order == m.store.order[1..] + [Sentinel]
    ensures Step(m, Tick, load, subst).store.texts == m.store.texts
  {
    SweepWithMarkerOldest(m.store);
  }

  /** Once a look-alike of the marker is oldest and the marker newest, a
      tick changes nothing at all. */
  lemma BlockedTickIsIdle(m: TemplateMatcher, load: Key -> Option<Text>,
                          subst: (Text, Params) -> Text)
    requires Inv(m) && m.autoPurge
    requires |m.store.order| > 0 && IsSentinelLike(m.store.order[0])
    requires Last(m.store.order) == Sentinel
    ensures Step(m, Tick, load, subst) == m
  {
    LookalikeBlocksEviction(m.store);
  }

  /** One purge cycle after those two renders leaves the look-alike oldest
      and the marker newest. */
  lemma LookalikeTicked(params: Params, load: Key -> Option<Text>,
                        subst: (Text, Params) -> Text)
    requires load("Sentinel").Some? && load("a").Some?
    ensures var m := Replay(NewConfigured(true, 60, Minutes),
                            [Render("Sentinel", params), Render("a", params)] + [Tick], load, subst);
            m.store.order == ["Sentinel", "a", Sentinel]
  {
    var m0 := NewConfigured(true, 60, Minutes);
    var rendered := [Render("Sentinel", params), Render("a", params)];
    ReplaySnoc(m0, rendered, Tick, load, subst);
    LookalikeRendered(params, load, subst);
    var m2 := Replay(m0, rendered, load, subst);
    TickWithMarkerOldest(m2, load, subst);
    RotateOldest(m2.store.order, Sentinel, "Sentinel", "a");
  }

  /** The blocked state is reachable: rendering a template cached under
      "Sentinel", then one under "a", then one purge cycle leaves the
      look-alike oldest and the marker newest, and from then on every
      purge cycle changes nothing, so while only ticks follow "a" is never
      evicted (`LookalikeHoldsEviction` extends this to any events that do
      not render "Sentinel"). */
  lemma LookalikeReachable(params: Params, load: Key -> Option<Text>,
                           subst: (Text, Params) -> Text)
    requires load("Sentinel").Some? && load("a").Some?
    ensures var m := Replay(NewConfigured(true, 60, Minutes),
                            [Render("Sentinel", params), Render("a", params)] + [Tick], load, subst);
            && m.store.order == ["Sentinel", "a", Sentinel]
            && "a" in m.store.texts
            && Step(m, Tick, load, subst) == m
  {
    LookalikeTicked(params, load, subst);
    CapitalisedSentinelIsLike();
    var m := Replay(NewConfigured(true, 60, Minutes),
                    [Render("Sentinel", params), Render("a", params)] + [Tick], load, subst);
    assert m.store.order[1] == "a";
    BlockedTickIsIdle(m, load, subst);
  }
}

=== FILE: order.dfy ===
/** Facts about the key order of the store: distinctness, removal of one
    key, moving a key to the newest end, and the first key passing a test. */
module Order {

  /** No key occurs twice. */
  predicate Distinct<T(==)>(s: seq<T>) {
    forall i, j :: 0 <= i < j < |s| ==> s[i] != s[j]
  }

  /** The newest element of a non-empty order. */
  function Last<T>(s: seq<T>): T
    requires |s| > 0
  {
    s[|s| - 1]
  }

  /** `b` ends with `a`. */
  predicate IsSuffix<T(==)>(a: seq<T>, b: seq<T>) {
    |a| <= |b| && a == b[|b| - |a|..]
  }

  /** `s` with every occurrence of `x` dropped, the others in their order. */
  function Without<T(==,!new)>(s: seq<T>, x: T): (r: seq<T>)
    ensures forall y :: y in r <==> y in s && y != x
    ensures x !in s ==> r == s
    ensures |r| <= |s|
  {
    if |s| == 0 then []
    else if s[0] == x then Without(s[1..], x)
    else [s[0]] + Without(s[1..], x)
  }

  /** Removing an element from a distinct sequence keeps it distinct and,
      when the element occurs, shortens it by exactly one. */
  lemma {:induction false} WithoutDistinct<T(!new)>(s: seq<T>, x: T)
    ensures Distinct(s) ==> Distinct(Without(s, x))
    ensures Distinct(s) && x in s ==> |Without(s, x)| == |s| - 1
  {
    if |s| > 0 && Distinct(s) {
      assert Distinct(s[1..]) by {
        forall i, j | 0 <= i < j < |s[1..]| ensures s[1..][i] != s[1..][j] {
          assert s[1..][i] == s[i + 1] && s[1..][j] == s[j + 1];
        }
      }
      WithoutDistinct(s[1..], x);
      if s[0] != x {
        assert s[0] !in s[1..];
        var r := [s[0]] + Without(s[1..], x);
        assert x in s ==> x in s[1..];
        forall i, j | 0 <= i < j < |r| ensures r[i] != r[j] {
          if i == 0 {
            assert r[j] in Without(s[1..], x);
          } else {
            assert r[i] == Without(s[1..], x)[i - 1] && r[j] == Without(s[1..], x)[j - 1];
          }
        }
      }
    }
  }

  /** `s` with `x` placed at the newest end and nowhere else. */
  function MoveToEnd<T(==,!new)>(s: seq<T>, x: T): (r: seq<T>)
    ensures |r| > 0 && Last(r) == x
    ensures forall y :: y in r <==> y in s || y == x
    ensures Distinct(s) ==> Distinct(r)
    ensures Distinct(s) && x in s ==> |r| == |s|
  {
    WithoutDistinct(s, x);
    Without(s, x) + [x]
  }

  /** The index of the first element passing `p`, or `|s|` when none does. */
  function FirstMatch<T>(s: seq<T>, p: T -> bool): (i: nat)
    ensures i <= |s|
    ensures forall j :: 0 <= j < i ==> !p(s[j])
    ensures i < |s| ==> p(s[i])
  {
    if |s| == 0 then 0
    else if p(s[0]) then 0
    else 1 + FirstMatch(s[1..], p)
  }

  /** Removal distributes over concatenation. */
  lemma {:induction false} WithoutAppend<T(!new)>(a: seq<T>, b: seq<T>, x: T)
    ensures Without(a + b, x) == Without(a, x) + Without(b, x)
  {
    if |a| > 0 {
      assert (a + b)[1..] == a[1..] + b;
      WithoutAppend(a[1..], b, x);
    } else {
      assert a + b == b;
    }
  }

  /** Moving `x` to the end leaves every other element's relative order
      unchanged. */
  lemma MoveToEndKeepsOthers<T(!new)>(s: seq<T>, x: T)
    ensures Without(MoveToEnd(s, x), x) == Without(s, x)
  {
    WithoutAppend(Without(s, x), [x], x);
    assert Without([x], x) == [];
  }

  /** Dropping a prefix of `s` and then removing `x` leaves a suffix of
      `s` with `x` removed. */
  lemma {:induction false} WithoutOfSuffix<T(!new)>(s: seq<T>, i: nat, x: T)
    requires i <= |s|
    ensures IsSuffix(Without(s[i..], x), Without(s, x))
  {
    assert s == s[..i] + s[i..];
    WithoutAppend(s[..i], s[i..], x);
  }

  /** In a distinct order, the element at index `i` occurs in the slice
      from `j` exactly when `j <= i`. */
  lemma DistinctSliceMembership<T>(s: seq<T>, i: nat, j: nat)
    requires Distinct(s)
    requires i < |s| && j <= |s|
    ensures s[i] in s[j..] <==> j <= i
  {
    if s[i] in s[j..] {
      var k :| 0 <= k < |s[j..]| && s[j..][k] == s[i];
      assert s[j + k] == s[i];
    }
  }

  lemma DistinctSlice<T>(s: seq<T>, i: nat)
    requires Distinct(s) && i <= |s|
    ensures Distinct(s[i..])
  {
    forall a, b | 0 <= a < b < |s[i..]|
      ensures s[i..][a] != s[i..][b]
    {
      assert s[i..][a] == s[i + a] && s[i..][b] == s[i + b];
    }
  }

  /** An element before the first match does not pass the test, so the
      first match lies beyond it. */
  lemma FirstMatchPast<T>(s: seq<T>, p: T -> bool, n: nat)
    requires n < |s| && n <= FirstMatch(s, p) && !p(s[n])
    ensures n + 1 <= FirstMatch(s, p)
  {
  }

  /** `a` occurs at or before an occurrence of `b`. */
  predicate Precedes<T(==)>(s: seq<T>, a: T, b: T) {
    exists i, j :: 0 <= i <= j < |s| && s[i] == a && s[j] == b
  }

  /** Two positions in order witness `Precedes`. */
  lemma PrecedesAt<T>(s: seq<T>, i: int, j: int)
    requires 0 <= i <= j < |s|
    ensures Precedes(s, s[i], s[j])
  {
  }

  /** Removing a third element keeps `a` at or before `b`. */
  lemma {:induction false} WithoutKeepsPrecedes<T(!new)>(s: seq<T>, x: T, a: T, b: T)
    requires a != x && b != x && Precedes(s, a, b)
    ensures Precedes(Without(s, x), a, b)
  {
    var i, j :| 0 <= i <= j < |s| && s[i] == a && s[j] == b;
    var w := Without(s[1..], x);
    if i == 0 {
      assert Without(s, x) == [a] + w;
      if s[0] == b {
        PrecedesAt(Without(s, x), 0, 0);
      } else {
        assert s[1..][j - 1] == b;
        assert b in w;
        var k :| 0 <= k < |w| && w[k] == b;
        PrecedesAt(Without(s, x), 0, k + 1);
      }
    } else {
      assert s[1..][i - 1] == a && s[1..][j - 1] == b;
      WithoutKeepsPrecedes(s[1..], x, a, b);
      var i', j' :| 0 <= i' <= j' < |w| && w[i'] == a && w[j'] == b;
      if s[0] != x {
        assert Without(s, x) == [s[0]] + w;
        PrecedesAt(Without(s, x), i' + 1, j' + 1);
      }
    }
  }

  /** Moving `x` to the end keeps `a` at or before `b`, and puts every
      other present element before `x`. */
  lemma MoveToEndKeepsPrecedes<T(!new)>(s: seq<T>, x: T, a: T, b: T)
    requires a != x
    requires (b != x && Precedes(s, a, b)) || (b == x && a in s)
    ensures Precedes(MoveToEnd(s, x), a, b)
  {
    var w := Without(s, x);
    var r := MoveToEnd(s, x);
    if b != x {
      WithoutKeepsPrecedes(s, x, a, b);
      var i, j :| 0 <= i <= j < |w| && w[i] == a && w[j] == b;
      PrecedesAt(r, i, j);
    } else {
      assert a in w;
      var i :| 0 <= i < |w| && w[i] == a;
      PrecedesAt(r, i, |w|);
    }
  }

  /** Moving an element other than the oldest to the end keeps the oldest. */
  lemma MoveToEndKeepsOldest<T(!new)>(s: seq<T>, x: T)
    requires |s| > 0 && s[0] != x
    ensures MoveToEnd(s, x)[0] == s[0]
  {
  }
}

=== FILE: singleton.dfy ===
/** The static `single(...)` accessors (TemplateMatcher.java lines 56-67):
    the first call constructs the process-wide matcher with its own
    arguments, and every later call returns that matcher and ignores its
    arguments. The static field is a registry holding at most one matcher. */
module Singleton {
  import opened Keys
  import opened Templates

  /** The static field `single`: None until the first accessor call. */
  datatype Registry = Registry(single: Option<TemplateMatcher>)

  /** The registry after an accessor call and the matcher it returned. */
  datatype Acquired = Acquired(registry: Registry, instance: TemplateMatcher)

  /** One of the three accessor overloads, with its arguments. */
  datatype Call =
    | Plain
    | WithPurge(autoPurge: bool)
    | Configured(autoPurge: bool, intervalToPurge: Long, unit: TimeUnit)

  /** The matcher the constructor matching `c` builds. */
  function Construct(c: Call): (m: TemplateMatcher)
    ensures Inv(m)
  {
    match c
    case Plain => NewPlain()
    case WithPurge(autoPurge) => NewWithPurge(autoPurge)
    case Configured(autoPurge, interval, unit) => NewConfigured(autoPurge, interval, unit)
  }

  /** The accessor call `c`: return the registered matcher if there is one,
      otherwise construct one from `c`'s arguments and register it. */
  function Single(g: Registry, c: Call): (r: Acquired)
    ensures r.registry.single == Some(r.instance)
    ensures g.single.Some? ==> r.registry == g && r.instance == g.single.value
    ensures g.single.None? ==> r.instance == Construct(c)
  {
    match g.single
    case Some(m) => Acquired(g, m)
    case None => var m := Construct(c); Acquired(Registry(Some(m)), m)
  }

  /** A sequence of accessor calls: the final registry and what each call
      returned. */
  function Run(g: Registry, calls: seq<Call>): (r: (Registry, seq<TemplateMatcher>))
    ensures |r.1| == |calls|
    ensures |calls| > 0 ==> r.0.single.Some?
    decreases |calls|
  {
    if |calls| == 0 then (g, [])
    else
      var first := Single(g, calls[0]);
      var rest := Run(first.registry, calls[1..]);
      (rest.0, [first.instance] + rest.1)
  }

  /** Once a matcher is registered, every call returns it and the registry
      never changes. */
  lemma {:induction false} RegisteredIsStable(g: Registry, calls: seq<Call>)
    requires g.single.Some?
    ensures Run(g, calls).0 == g
    ensures forall i :: 0 <= i < |calls| ==> Run(g, calls).1[i] == g.single.value
  {
    if |calls| > 0 {
      RegisteredIsStable(g, calls[1..]);
    }
  }

  /** First call wins: from an empty registry, every call in a sequence
      returns the matcher built from the first call's arguments, whatever
      the later calls ask for. */
  lemma {:induction false} FirstCallWins(calls: seq<Call>)
    requires |calls| > 0
    ensures forall i :: 0 <= i < |calls| ==> Run(Registry(None), calls).1[i] == Construct(calls[0])
    ensures Run(Registry(None), calls).0 == Registry(Some(Construct(calls[0])))
  {
    var first := Single(Registry(None), calls[0]);
    RegisteredIsStable(first.registry, calls[1..]);
  }

  /** Later configuration is ignored: a second call asking for auto-purge
      after a plain first call still gets the plain matcher, with no marker
      and no purge worker. */
  lemma LaterConfigurationIgnored(interval: Long, unit: TimeUnit)
    ensures var m := Run(Registry(None), [Plain, Configured(true, interval, unit)]).1[1];
            !m.autoPurge && m.worker == None && Sentinel !in m.store.order
  {
    FirstCallWins([Plain, Configured(true, interval, unit)]);
  }
}

=== FILE: store.dfy ===
/** The template cache: a Java `LinkedHashMap<String, String>` that is
    access-ordered when auto-purge is on and insertion-ordered otherwise
    (TemplateMatcher.java lines 40 and 48).

    The map is split into its iteration order (oldest first) and its
    key-to-text mapping; `Valid` ties the two together. */
module Cache {
  import opened Keys
  import opened Order

  datatype Store = Store(order: seq<Key>, texts: map<Key, Text>, accessOrder: bool)

  /** Keys are pairwise distinct and the order lists exactly the mapped keys. */
  ghost predicate Valid(s: Store) {
    && Distinct(s.order)
    && forall k :: k in s.order <==> k in s.texts
  }

  /** A store with no entries. */
  function Empty(accessOrder: bool): (s: Store)
    ensures Valid(s) && s.order == [] && s.texts == map[]
    ensures s.accessOrder == accessOrder
  {
    Store([], map[], accessOrder)
  }

  /** The store after `get` together with the value `get` returns (None
      standing for Java's null). */
  datatype Lookup = Lookup(store: Store, value: Option<Text>)

  /** `LinkedHashMap.containsKey`: a pure lookup that never reorders. */
  function ContainsKey(s: Store, k: Key): (b: bool)
    requires Valid(s)
    ensures b <==> k in s.order
  {
    k in s.texts
  }

  /** `LinkedHashMap.get`: in access order a present key becomes newest. */
  function Get(s: Store, k: Key): (r: Lookup)
    requires Valid(s)
    ensures Valid(r.store)
    ensures r.store.texts == s.texts && r.store.accessOrder == s.accessOrder
    ensures k in s.order ==> r.value == Some(s.texts[k])
    ensures k !in s.order ==> r.value == None && r.store == s
    ensures k in s.order && s.accessOrder ==> Last(r.store.order) == k
    ensures !s.accessOrder ==> r.store == s
    ensures Without(r.store.order, k) == Without(s.order, k)
  {
    if k in s.texts then
      MoveToEndKeepsOthers(s.order, k);
      var moved := if s.accessOrder then s.(order := MoveToEnd(s.order, k)) else s;
      Lookup(moved, Some(s.texts[k]))
    else
      Lookup(s, None)
  }

  /** `LinkedHashMap.put`: a new key is appended as newest; an existing key
      has its text replaced and, in access order only, becomes newest. */
  function Put(s: Store, k: Key, v: Text): (r: Store)
    requires Valid(s)
    ensures Valid(r)
    ensures r.texts == s.texts[k := v] && r.accessOrder == s.accessOrder
    ensures k !in s.order || s.accessOrder ==> Last(r.order) == k
    ensures k in s.order && !s.accessOrder ==> r.order == s.order
    ensures Without(r.order, k) == Without(s.order, k)
  {
    MoveToEndKeepsOthers(s.order, k);
    var order := if k in s.texts && !s.accessOrder then s.order else MoveToEnd(s.order, k);
    Store(order, s.texts[k := v], s.accessOrder)
  }

  /** The keys listed in `o`. */
  function KeysOf(o: seq<Key>): (ks: set<Key>)
    ensures forall k :: k in ks <==> k in o
  {
    set k | k in o
  }

  /** Removing the keys of the first `n` positions and then the key at
      position `n` removes the keys of the first `n + 1` positions. */
  lemma RemoveNext(texts: map<Key, Text>, o: seq<Key>, n: nat)
    requires n < |o|
    ensures (texts - KeysOf(o[..n])) - {o[n]} == texts - KeysOf(o[..n + 1])
  {
    assert o[..n + 1] == o[..n] + [o[n]];
    assert KeysOf(o[..n + 1]) == KeysOf(o[..n]) + {o[n]};
  }

  /** The store with its `n` oldest entries removed, as an iterator's
      `remove` does while walking from the oldest end. */
  function DropOldest(s: Store, n: nat): (r: Store)
    requires Valid(s) && n <= |s.order|
    ensures Valid(r) && r.accessOrder == s.accessOrder
    ensures r.order == s.order[n..]
    ensures forall j :: 0 <= j < |s.order| ==> (s.order[j] in r.texts <==> n <= j)
    ensures forall k :: k in r.texts ==> k in s.texts && r.texts[k] == s.texts[k]
  {
    var r := Store(s.order[n..], s.texts - KeysOf(s.order[..n]), s.accessOrder);
    DistinctSlice(s.order, n);
    forall j | 0 <= j < |s.order|
      ensures s.order[j] in r.texts <==> n <= j
    {
      DistinctSliceMembership(s.order, j, n);
      assert s.order[..n] + s.order[n..] == s.order;
    }
    forall k
      ensures k in r.order <==> k in r.texts
    {
      assert s.order[..n] + s.order[n..] == s.order;
    }
    r
  }

  /** `containsKey` agrees with `get`: a key is contained exactly when
      `get` returns a value, and then it is the stored text. */
  lemma ContainsKeyMatchesGet(s: Store, k: Key)
    requires Valid(s)
    ensures ContainsKey(s, k) <==> Get(s, k).value.Some?
    ensures ContainsKey(s, k) ==> Get(s, k).value == Some(s.texts[k])
  {
  }

  /** Reading back what was put returns it, and `put` leaves every other
      key's text alone. */
  lemma PutThenGet(s: Store, k: Key, v: Text, other: Key)
    requires Valid(s)
    ensures Get(Put(s, k, v), k).value == Some(v)
    ensures other != k ==> Get(Put(s, k, v), other).value == Get(s, other).value
  {
  }
}

=== FILE: sweep.dfy ===
/** The generational sweep run by the purge worker
    (TemplateMatcher.java lines 128-147).

    Walking the store from its oldest end, every entry is removed until a
    boundary key is met; the marker is then read with `get`, which in the
    access-ordered store moves it to the newest end. Line 139 tests the
    boundary with `"sentinel".equalsIgnoreCase(key)` (`SweepIgnoringCase`);
    `SweepExact` is the same cycle with the marker compared exactly. */
module Sweeps {
  import opened Keys
  import opened Order
  import opened Cache

  /** One sweep cycle whose walk stops at the first key passing `boundary`.
      When no key passes, everything is removed and the marker is not read. */
  function SweepUntil(s: Store, boundary: Key -> bool): (r: Store)
    requires Valid(s)
    ensures Valid(r) && r.accessOrder == s.accessOrder
    ensures |r.order| == |s.order| - FirstMatch(s.order, boundary)
    ensures forall k :: k in r.texts ==> k in s.texts && r.texts[k] == s.texts[k]
  {
    var i := FirstMatch(s.order, boundary);
    var kept := DropOldest(s, i);
    if i == |s.order| then kept else Get(kept, Sentinel).store
  }

  /** The entries a sweep keeps are exactly those at or after the first
      boundary key; all older ones are removed. */
  lemma SweepRemovesOldGeneration(s: Store, boundary: Key -> bool)
    requires Valid(s)
    ensures forall j :: 0 <= j < |s.order| ==>
              (s.order[j] in SweepUntil(s, boundary).texts <==> FirstMatch(s.order, boundary) <= j)
  {
  }

  /** Apart from the marker, the surviving entries keep their relative
      order: they form the newest part of the old order. */
  lemma SweepKeepsRelativeOrder(s: Store, boundary: Key -> bool)
    requires Valid(s)
    ensures IsSuffix(Without(SweepUntil(s, boundary).order, Sentinel), Without(s.order, Sentinel))
  {
    var i := FirstMatch(s.order, boundary);
    WithoutOfSuffix(s.order, i, Sentinel);
  }

  /** When the marker is itself a boundary key and is present, the sweep
      leaves it at the newest end of the order. */
  lemma SweepMovesMarkerToNewest(s: Store, boundary: Key -> bool)
    requires Valid(s) && s.accessOrder
    requires boundary(Sentinel) && Sentinel in s.order
    ensures Sentinel in SweepUntil(s, boundary).order
    ensures Last(SweepUntil(s, boundary).order) == Sentinel
  {
    var i := FirstMatch(s.order, boundary);
    var p :| 0 <= p < |s.order| && s.order[p] == Sentinel;
    assert i <= p;
    var kept := DropOldest(s, i);
    assert Sentinel in kept.order;
    assert SweepUntil(s, boundary) == Get(kept, Sentinel).store;
  }

  /** The sweep as TemplateMatcher.java line 139 writes it: the marker test
      ignores case. */
  function SweepIgnoringCase(s: Store): (r: Store)
    requires Valid(s)
    ensures Valid(r)
    ensures forall k :: k in r.texts ==> k in s.texts && r.texts[k] == s.texts[k]
    ensures Sentinel in s.order && s.accessOrder ==> Sentinel in r.order && Last(r.order) == Sentinel
  {
    SentinelIsSentinelLike(Sentinel);
    SweepUntil(s, IsSentinelLike)
  }

  /** The sweep with the marker compared exactly. */
  function SweepExact(s: Store): (r: Store)
    requires Valid(s)
    ensures Valid(r)
    ensures forall k :: k in r.texts ==> k in s.texts && r.texts[k] == s.texts[k]
    ensures Sentinel in s.order && s.accessOrder ==> Sentinel in r.order && Last(r.order) == Sentinel
  {
    SweepUntil(s, IsSentinel)
  }

  /** The purge worker's `run` as an iterator walk: stop at the first key
      equal to the marker ignoring case, otherwise remove the entry, and
      return early once the store is exhausted; when the walk stopped at a
      boundary, read the marker. */
  method SweepCycle(s: Store) returns (r: Store)
    requires Valid(s)
    ensures r == SweepIgnoringCase(s)
  {
    var cur, n := RemoveUntilBoundary(s);
    if n == |s.order| {
      SweepWithoutBoundary(s);
      return cur;
    }
    SweepAtBoundary(s, n);
    r := Get(cur, Sentinel).store;
  }

  /** The walk of the purge worker's iterator: entries are removed from the
      oldest end until a key equal to the marker ignoring case is next or
      the store is exhausted. The loop test covers both the check before the
      walk and the one after each removal. `n` counts the removals. */
  method RemoveUntilBoundary(s: Store) returns (cur: Store, n: nat)
    requires Valid(s)
    ensures n == FirstMatch(s.order, IsSentinelLike)
    ensures cur == DropOldest(s, n)
  {
    cur := s;
    n := 0;
    assert s.order[..0] == [];
    while n < |s.order|
      invariant n <= FirstMatch(s.order, IsSentinelLike)
      invariant cur.order == s.order[n..] && cur.accessOrder == s.accessOrder
      invariant cur.texts == s.texts - KeysOf(s.order[..n])
      decreases |s.order| - n
    {
      var key := cur.order[0];
      if IsSentinelLike(key) {
        return;
      }
      FirstMatchPast(s.order, IsSentinelLike, n);
      RemoveNext(s.texts, s.order, n);
      cur := Store(cur.order[1..], cur.texts - {key}, cur.accessOrder);
      n := n + 1;
    }
  }

  /** With no marker-like key, the sweep removes every entry. */
  lemma SweepWithoutBoundary(s: Store)
    requires Valid(s) && FirstMatch(s.order, IsSentinelLike) == |s.order|
    ensures SweepIgnoringCase(s) == DropOldest(s, |s.order|)
  {
  }

  /** Meeting a marker-like key at position `n`, after removing every key
      before it, the sweep ends by reading the marker. */
  lemma SweepAtBoundary(s: Store, n: nat)
    requires Valid(s) && n < |s.order|
    requires n <= FirstMatch(s.order, IsSentinelLike) && IsSentinelLike(s.order[n])
    ensures SweepIgnoringCase(s) == Get(DropOldest(s, n), Sentinel).store
  {
    assert FirstMatch(s.order, IsSentinelLike) == n;
  }

  /** A sweep that finds the marker oldest removes nothing and only moves
      the marker to the newest end. */
  lemma SweepWithMarkerOldest(s: Store)
    requires Valid(s) && s.accessOrder
    requires |s.order| > 0 && s.order[0] == Sentinel
    ensures SweepIgnoringCase(s).texts == s.texts
    ensures SweepIgnoringCase(s).order == s.order[1..] + [Sentinel]
  {
    SentinelIsSentinelLike(Sentinel);
    assert FirstMatch(s.order, IsSentinelLike) == 0;
    assert DropOldest(s, 0) == s;
    assert Sentinel !in s.order[1..] by {
      DistinctSliceMembership(s.order, 0, 1);
    }
    assert Without(s.order, Sentinel) == Without(s.order[1..], Sentinel);
  }

  /** Every entry at or after the marker's position survives a sweep. */
  lemma EntryAfterMarkerSurvives(s: Store, p: nat, k: Key)
    requires Valid(s)
    requires p < |s.order| && s.order[p] == Sentinel
    requires k in s.order[p..]
    ensures k in SweepIgnoringCase(s).texts
    ensures k in SweepExact(s).texts
  {
    SentinelIsSentinelLike(Sentinel);
    var q :| 0 <= q < |s.order[p..]| && s.order[p..][q] == k;
    assert s.order[p + q] == k;
    SweepRemovesOldGeneration(s, IsSentinelLike);
    SweepRemovesOldGeneration(s, IsSentinel);
  }

  /** Every entry the marker precedes survives a sweep. */
  lemma PrecededByMarkerSurvives(s: Store, k: Key)
    requires Valid(s) && Precedes(s.order, Sentinel, k)
    ensures k in SweepIgnoringCase(s).texts
  {
    var i, j :| 0 <= i <= j < |s.order| && s.order[i] == Sentinel && s.order[j] == k;
    assert s.order[i..][j - i] == k;
    EntryAfterMarkerSurvives(s, i, k);
  }

  /** With the marker present, the newest entry (the one touched last)
      survives the next sweep. */
  lemma NewestEntrySurvives(s: Store)
    requires Valid(s) && Sentinel in s.order
    ensures Last(s.order) in SweepIgnoringCase(s).texts
    ensures Last(s.order) in SweepExact(s).texts
  {
    var p :| 0 <= p < |s.order| && s.order[p] == Sentinel;
    assert s.order[|s.order| - 1] == s.order[p..][|s.order| - 1 - p];
    EntryAfterMarkerSurvives(s, p, Last(s.order));
  }

  /** A sweep of a store whose newest key is the marker keeps only the
      marker: everything else belongs to the old generation. */
  lemma SweepWithMarkerNewest(s: Store)
    requires Valid(s) && s.accessOrder
    requires |s.order| > 0 && Last(s.order) == Sentinel
    ensures SweepExact(s).order == [Sentinel]
    ensures SweepExact(s).texts == map[Sentinel := s.texts[Sentinel]]
  {
    var n := |s.order|;
    var i := FirstMatch(s.order, IsSentinel);
    assert i == n - 1 by {
      assert i <= n - 1;
      assert s.order[i] == Sentinel;
    }
    var kept := DropOldest(s, n - 1);
    assert kept.order == [Sentinel];
    assert kept.texts == map[Sentinel := s.texts[Sentinel]] by {
      assert kept.texts.Keys == {Sentinel};
    }
    assert SweepExact(s) == Get(kept, Sentinel).store;
    assert Without(kept.order, Sentinel) == [];
  }

  /** Two sweeps with nothing touched in between leave only the marker. */
  lemma TwoSweepsExact(s: Store)
    requires Valid(s) && s.accessOrder && Sentinel in s.order
    ensures SweepExact(SweepExact(s)).order == [Sentinel]
    ensures SweepExact(SweepExact(s)).texts == map[Sentinel := s.texts[Sentinel]]
  {
    var s1 := SweepExact(s);
    SweepWithMarkerNewest(s1);
  }

  /** When no stored key other than the marker passes the case-insensitive
      test, the sweep as written and the exact sweep agree. */
  lemma SweepsAgree(s: Store)
    requires Valid(s)
    requires forall k :: k in s.order && IsSentinelLike(k) ==> k == Sentinel
    ensures SweepIgnoringCase(s) == SweepExact(s)
  {
    SentinelIsSentinelLike(Sentinel);
    FirstMatchAgree(s.order, IsSentinelLike, IsSentinel);
  }

  /** `FirstMatch` only looks at the elements of the sequence. */
  lemma {:induction false} FirstMatchAgree<T>(s: seq<T>, p: T -> bool, q: T -> bool)
    requires forall x :: x in s ==> p(x) == q(x)
    ensures FirstMatch(s, p) == FirstMatch(s, q)
  {
    if |s| > 0 {
      FirstMatchAgree(s[1..], p, q);
    }
  }

  /** Two case-insensitive sweeps leave only the marker, provided no stored
      key other than the marker passes the case-insensitive test. */
  lemma TwoSweepsIgnoringCase(s: Store)
    requires Valid(s) && s.accessOrder && Sentinel in s.order
    requires forall k :: k in s.order && IsSentinelLike(k) ==> k == Sentinel
    ensures SweepIgnoringCase(SweepIgnoringCase(s)).order == [Sentinel]
  {
    SweepsAgree(s);
    var s1 := SweepExact(s);
    SweepsAgree(s1);
    TwoSweepsExact(s);
  }

  /** An access-ordered store holding a template cached under the key
      "Sentinel", an ordinary template "a", and the marker. */
  function LookalikeStore(): (s: Store)
    ensures Valid(s) && s.accessOrder && Sentinel in s.order && "a" in s.texts
  {
    Store(["Sentinel", "a", Sentinel],
          map["Sentinel" := "x", "a" := "y", Sentinel := Sentinel], true)
  }

  /** A cached key that passes the case-insensitive test stops the
      case-insensitive sweep once it is oldest: when the marker is newest, as
      after any sweep, the sweep returns the store unchanged. */
  lemma LookalikeBlocksEviction(s: Store)
    requires Valid(s) && s.accessOrder
    requires |s.order| > 0 && IsSentinelLike(s.order[0]) && Last(s.order) == Sentinel
    ensures SweepIgnoringCase(s) == s
  {
    var n := |s.order|;
    assert FirstMatch(s.order, IsSentinelLike) == 0;
    assert s.order[..0] == [];
    assert DropOldest(s, 0) == s;
    var older := s.order[..n - 1];
    assert s.order == older + [Sentinel];
    assert Sentinel !in older by {
      forall i | 0 <= i < |older| ensures older[i] != Sentinel {
        assert older[i] == s.order[i];
      }
    }
    WithoutAppend(older, [Sentinel], Sentinel);
    assert Without([Sentinel], Sentinel) == [];
    assert MoveToEnd(s.order, Sentinel) == s.order;
  }

  /** A sweep that finds a marker-like key oldest removes nothing and only
      reads the marker, moving it to the newest end. */
  lemma SweepWithLookalikeOldest(s: Store)
    requires Valid(s) && s.accessOrder && Sentinel in s.texts
    requires |s.order| > 0 && IsSentinelLike(s.order[0])
    ensures SweepIgnoringCase(s).texts == s.texts
    ensures SweepIgnoringCase(s).order == MoveToEnd(s.order, Sentinel)
  {
    assert s.order[..0] == [];
    assert DropOldest(s, 0) == s;
    SweepAtBoundary(s, 0);
  }

  /** On that store the case-insensitive sweep changes nothing, while the exact
      sweep evicts "a" on the second cycle. */
  lemma ExactSweepEvictsBehindLookalike()
    ensures SweepIgnoringCase(LookalikeStore()) == LookalikeStore()
    ensures "a" !in SweepExact(SweepExact(LookalikeStore())).texts
  {
    CapitalisedSentinelIsLike();
    LookalikeBlocksEviction(LookalikeStore());
    TwoSweepsExact(LookalikeStore());
  }
}
